=== FILE: README.md ===
# GB Color Picker, modelled in Dafny

A model of the core of `gbcolorpicker.c`, a Game Boy Color / Super Game Boy
program for choosing four colors. Each color has three 5-bit components.
The user moves a cursor over the twelve components with Left and Right.
Up and Down change the selected component one step at a time. A and B jump
to the maximum or the minimum and back. Select randomizes all four colors.

Every color is shown in its own quadrant of the screen, and the whole
palette is mirrored into the cartridge's save RAM. If an emulator writes
that RAM, the picker picks the change up.

The main loop's static locals become one immutable `Picker.State`:

- the colors;
- `raw_colors`;
- the first four save-RAM words;
- the cursor;
- `backup_component`;
- the two dirty flags.

Each piece of the loop is a pure function. Hardware writes
(`set_bkg_palette_entry`, `sgb_transfer`) are returned as `Backend.Event`
values. Their effect on what the screen shows is modelled by
`Backend.ApplyAll`.

Modules:

- `Bits`: bytes, words, nibbles, and the hex digit tiles.
- `Color`: 15-bit packing, `EXTEND`, and the text-contrast rule.
- `Cursor`: the 12-position walk.
- `Buttons`: joypad codes and the dispatch decoding.
- `Backend`: the Super Game Boy packets and the Game Boy Color palette
  writes, the update policy, and the screen effect.
- `Picker`: the state machine.
- `Session`: properties over several calls and whole sessions.

The main results are in `Session`:

- `SessionStaysInStep`: from power-on, whatever the save RAM and the screen
  held, after every pass the next pass leaves each quadrant showing its
  color and its contrast text color. It also leaves the save RAM holding
  exactly the palette, so the idle poll reloads nothing.
- `SaveSurvivesRestart`: a flushed palette comes back unchanged at the next
  power-on.
- `ExternalWriteAdopted`: a foreign write to the save RAM becomes the
  palette.

The text-contrast rule, a finding: `text_color` weighs red by 10/3 and
green by 10/6, where the brightness formula it follows has 0.299 and 0.587
(gbcolorpicker.c:43-45). The state machine runs the code's weights
(`Color.WrittenLuminance`, `Color.TextWord`), so the default red and green
quadrants get black text, as on the hardware. The intended weights 3/10,
6/10 and 1/10 are modelled beside it (`Color.Luminance`, `Color.TextColor`)
with their properties, and nothing else uses them (see "## Findings").

Behaviour of the code that the model keeps:

- The text color (palette entry 3) of all four palettes is written on every
  pass, whether or not anything changed (gbcolorpicker.c:292-294). It is not
  written only for the changed index. On a Super Game Boy the text colors
  travel only inside the palette packets.
- A and B compare the value with the extreme. They do not remember whether
  they set it. Select and a save-RAM reload do not refresh
  `backup_component`.
- A save word with bit 15 set is kept in `raw_colors` until the next repack.
  The next flush then writes it back with bit 15 cleared.

Constants that come from GBDK headers, which are not part of this model:

- the joypad masks `J_RIGHT` = 0x01 … `J_START` = 0x80;
- `RGB_BLACK` = 0x0000 and `RGB_WHITE` = 0x7fff. `Color.BlackAndWhiteWords`
  states these values. The screen and save-RAM invariants rely only on the
  two words being distinct;
- the packet headers `SGB_PAL_01 << 3 | 1` = 0x01 and
  `SGB_PAL_23 << 3 | 1` = 0x09.

`RGB(r, g, b)` is taken as the inverse of the unpacking in
`loadColorsFromPalette`.

## Model

| member | source | states |
|---|---|---|
| Bits.SplitWord | gbcolorpicker.c:99-103 | the low byte plus 256 times the high byte is the word |
| Bits.JoinBytes | gbcolorpicker.c:333-340 | reading a color back little-endian from two packet bytes: the word built from `lo` and `hi` splits back into the same two bytes |
| Bits.SplitByte | gbcolorpicker.c:86-96 | the high nibble times 16 plus the low nibble is the byte |
| Bits.HexTile | gbcolorpicker.c:70-77 | the tile for a digit is the font tile of that digit's ASCII glyph (`0`-`9`, `a`-`f`) |
| Bits.HexTileInjective | gbcolorpicker.c:70-77 | different digits get different tiles |
| Bits.RawNibbles | gbcolorpicker.c:99-103 | the four digits shown, high byte first and high nibble first, are the word's base-16 digits |
| Bits.RawTilesInjective | gbcolorpicker.c:86-103 | two different words never show the same four tiles |
| Color.Unpack | gbcolorpicker.c:55-57 | all three fields are in 0..31, and `c0 + 32*c1 + 1024*c2` is the word with bit 15 cleared |
| Color.Pack | gbcolorpicker.c:276 | a valid color packs below 0x8000 and unpacks back to itself |
| Color.PackUnpack | gbcolorpicker.c:55-57 | repacking an unpacked word gives the word with bit 15 cleared |
| Color.UnpackInjective | gbcolorpicker.c:50-59 | below bit 15, different words unpack to different colors |
| Color.PackInjective | gbcolorpicker.c:276 | different valid colors pack to different words |
| Color.Extend | gbcolorpicker.c:29 | the top five bits of the result are the component, and the low three are its top three bits |
| Color.ExtendSpansByteRange | gbcolorpicker.c:29 | 0 widens to 0, 31 widens to 255, and widening keeps the order |
| Color.Luminance | gbcolorpicker.c:43-46 | the intended rule (corrected member of the Findings row): ten times the luminance is within 30 below 3 red + 6 green + 1 blue, so it is a weighted mean of the components; on valid colors it is at most 31, on the threshold's 5-bit scale |
| Color.WrittenWeightsInverted | gbcolorpicker.c:44-45 | with the code's weights, white scores 157 and pure red 103, far past the 5-bit scale; pure red, pure green and the gray level 5 get black text, where the intended weights give them white |
| Color.WrittenGrayTextColor | gbcolorpicker.c:44-46 | with the code's weights, a gray gets black text exactly from level 5 of 31 up |
| Color.WrittenLuminanceBounded | gbcolorpicker.c:45 | with the code's weights, the luminance of a valid color is at most 157, so it fits its `uint16_t` |
| Color.WrittenTextColorExtremes | gbcolorpicker.c:42-47 | with the code's weights, white gets black text and black gets white text |
| Color.WrittenTextColorMonotone | gbcolorpicker.c:42-47 | with the code's weights, raising any component never lowers the luminance, nor turns black text white |
| Color.TextColorExtremes | gbcolorpicker.c:44-46 | the intended rule: white (luminance 30 there) gets black text and black gets white text |
| Color.TextColorMonotone | gbcolorpicker.c:44-46 | the intended rule: raising any component never lowers its luminance, nor turns black text white |
| Color.GrayTextColor | gbcolorpicker.c:44-46 | the intended rule: a gray level v gets black text exactly when v >= 25 |
| Color.BlackAndWhiteWords | gbcolorpicker.c:46 | the two text-color words unpack to all-zero and all-31 |
| Color.TextWord | gbcolorpicker.c:42-47 | the result is RGB_BLACK exactly when `c0*10/3 + c1*10/6 + c2/10`, every division truncating, exceeds 23, and RGB_WHITE exactly when it does not |
| Cursor.Left | gbcolorpicker.c:418-427 | a valid cursor stays valid and moves one place back in the 12-place walk, wrapping 0 to 11 |
| Cursor.Right | gbcolorpicker.c:447-456 | a valid cursor stays valid and moves one place on, wrapping 11 to 0 |
| Cursor.LeftUndoesRight | gbcolorpicker.c:418-456 | Left after Right is the identity |
| Cursor.RightUndoesLeft | gbcolorpicker.c:418-456 | Right after Left is the identity |
| Cursor.Rights | gbcolorpicker.c:447-456 | n Rights advance the walk by n places modulo 12 |
| Cursor.Lefts | gbcolorpicker.c:418-427 | n Lefts go back n places modulo 12 |
| Cursor.RightsCycle | gbcolorpicker.c:447-456 | twelve Rights, or any multiple of twelve, return to the start |
| Cursor.LeftsCycle | gbcolorpicker.c:418-427 | twelve Lefts, or any multiple of twelve, return to the start |
| Cursor.RightsVisitEveryPosition | gbcolorpicker.c:447-456 | every position is reached from every other in fewer than twelve Rights |
| Buttons.Decode | gbcolorpicker.c:409-521 | an action is chosen only for its exact mask, and every one of the seven masks selects some action (no action exactly when the value is none of them) |
| Buttons.DecodeCode | gbcolorpicker.c:409-521 | each button pressed alone selects its own action |
| Buttons.DecodeNothing | gbcolorpicker.c:409 | no button selects nothing |
| Buttons.CombinedButtonsSelectNothing | gbcolorpicker.c:409-521 | two buttons pressed together select nothing |
| Backend.PalPacket | gbcolorpicker.c:333-340 | 16 bytes: the header, then the two colors little-endian at bytes 3-4 and 9-10, the text colors at 7-8 and 13-14, and white at 1-2, 5-6 and 11-12 |
| Backend.TextWrites | gbcolorpicker.c:292-294 | one entry-3 write per palette, carrying that palette's text color |
| Backend.Update | gbcolorpicker.c:324-361 | nothing is written unless a flag is set; on SGB, PAL01 is sent exactly when dirty and (selected color <= 1 or all changed), and PAL23 exactly when dirty and (selected color >= 2 or all changed); on CGB, entry 1 of palette i is written exactly when all changed, or when the selected color changed and i is selected; each packet is sent at most once and each palette written at most once (0, 1 or 2 packets; 0, 1 or 4 writes) |
| Backend.RefreshCompletes | gbcolorpicker.c:324-361 | if every quadrant the flags leave out already shows its color, one pass's writes make the whole screen show the palette, on either backend |
| Backend.SgbRefresh | gbcolorpicker.c:342-348 | the Super Game Boy half of RefreshCompletes |
| Backend.CgbRefresh | gbcolorpicker.c:350-360 | the Game Boy Color half of RefreshCompletes |
| Backend.TextWritesEffect | gbcolorpicker.c:292-294 | on CGB the text writes set every text color; on SGB they change nothing |
| Picker.LoadColorsFromPalette | gbcolorpicker.c:50-59 | `raw_colors` becomes the four words, each color repacks to its word with bit 15 cleared, and nothing else changes |
| Picker.Startup | gbcolorpicker.c:215-221 | the save is loaded exactly when word 0 is not 0xffff; otherwise the defaults stay; the cursor is at (0,0) with its value backed up, and both flags are set |
| Picker.Packs | gbcolorpicker.c:274-276 | every packed word is below 0x8000 and unpacks to its color |
| Picker.TextWords | gbcolorpicker.c:293 | each palette's text word is RGB_BLACK exactly when the code's luminance of its color exceeds 23, and RGB_WHITE otherwise |
| Picker.DefaultTextWords | gbcolorpicker.c:42-47 | on the default palette the text is black on white, red and green, and white only on blue |
| Picker.Frame | gbcolorpicker.c:272-371 | `raw_colors` unpacks to the colors; the save RAM becomes `raw_colors` exactly when a flag was set and is untouched otherwise; the flags end cleared; a clean pass writes only text colors |
| Picker.Poll | gbcolorpicker.c:392-405 | on any differing save word, all four colors are reloaded from the save and both flags are set; otherwise nothing changes; afterwards the save and `raw_colors` agree |
| Picker.MoveLeft | gbcolorpicker.c:410-438 | the cursor moves back one place, the backup holds the new cell's value, and the colors and flags are untouched |
| Picker.MoveRight | gbcolorpicker.c:440-467 | the cursor moves on one place, the backup holds the new cell's value, and the colors and flags are untouched |
| Picker.Increment | gbcolorpicker.c:469-477 | below 31: +1, backed up and flagged; at 31: nothing changes, not even the flag; no other cell changes |
| Picker.Decrement | gbcolorpicker.c:479-487 | above 0: -1, backed up and flagged; at 0: nothing changes; no other cell changes |
| Picker.ToggleMax | gbcolorpicker.c:489-496 | the value becomes the backup if it was 31, and 31 otherwise; the backup is kept, the flag is always set, and no other cell changes |
| Picker.ToggleMin | gbcolorpicker.c:498-505 | the value becomes the backup if it was 0, and 0 otherwise; the backup is kept, the flag is always set, and no other cell changes |
| Picker.Randomize | gbcolorpicker.c:507-520 | any four words give a valid palette, each color repacking to its word with bit 15 cleared, and both flags are set |
| Picker.Dispatch | gbcolorpicker.c:409-521 | J_LEFT and J_RIGHT move the cursor one place back or on, back up the new value, and keep both flags; J_UP and J_DOWN step the selected value, back it up, and flag it, but at 31 (or 0) change nothing, not even a flag; J_A and J_B jump to 31 or 0, or from there back to the kept backup, and always flag; J_SELECT loads the four words with both flags set, keeping cursor and backup; a value that is no single-button mask changes nothing; only Select touches more than the selected cell, a cursor move never changes a color, and flags are never cleared |
| Session.MoveRightThenLeft | gbcolorpicker.c:410-467 | Right then Left restores the state, except that the backup now holds the current value |
| Session.MoveLeftThenRight | gbcolorpicker.c:410-467 | Left then Right restores the state, except that the backup now holds the current value |
| Session.IncrementThenDecrement | gbcolorpicker.c:469-487 | below 31, Up then Down restores the palette |
| Session.DecrementThenIncrement | gbcolorpicker.c:469-487 | above 0, Down then Up restores the palette |
| Session.ToggleMaxTwice | gbcolorpicker.c:489-496 | away from 31, A twice ends at the backup; if the backup is the current value v, the palette is back to v |
| Session.ToggleMinTwice | gbcolorpicker.c:498-505 | away from 0, B twice ends at the backup; if the backup is the current value, the palette is restored |
| Session.IncrementsSaturate | gbcolorpicker.c:469-477 | n presses of Up give min(v + n, 31) and touch no other cell |
| Session.DecrementsSaturate | gbcolorpicker.c:479-487 | n presses of Down give max(v - n, 0) and touch no other cell |
| Session.NoSpuriousReload | gbcolorpicker.c:386-406 | after a pass from a synced state the save equals `raw_colors`, so the idle poll reloads nothing |
| Session.WaitKeepsSynced | gbcolorpicker.c:386-521 | after a clean frame, the wait leaves the save holding the palette unless a flag is set |
| Session.StepKeepsSynced | gbcolorpicker.c:272-521 | every pass keeps "the save holds the palette, or a flush is pending" |
| Session.StartupLoadsPacked | gbcolorpicker.c:215-221 | a saved packed palette is never mistaken for an erased save and loads back exactly |
| Session.SaveSurvivesRestart | gbcolorpicker.c:215-221 | after a pass from a synced state, a restart brings back exactly the current colors |
| Session.ExternalWriteAdopted | gbcolorpicker.c:390-404 | a differing foreign write during the wait becomes the palette (bit 15 dropped) with both flags set, and the next pass saves it back in that form |
| Session.FrameRepaints | gbcolorpicker.c:292-361 | from a screen that shows every quadrant the flags leave out, a pass's writes show the whole palette |
| Session.DispatchKeepsShows | gbcolorpicker.c:409-521 | from a clean state, any dispatch leaves out only quadrants whose colors it left alone |
| Session.WaitKeepsShows | gbcolorpicker.c:386-521 | the wait after a frame keeps the screen invariant |
| Session.StepKeepsShows | gbcolorpicker.c:272-521 | every pass keeps "each quadrant the flags leave out shows its color" |
| Session.AdvanceKeepsInStep | gbcolorpicker.c:272-521 | one pass keeps both invariants together |
| Session.TraceKeepsInStep | gbcolorpicker.c:272-522 | along any sequence of passes, both invariants hold at every pass boundary |
| Session.StartupInStep | gbcolorpicker.c:180-183 | power-on satisfies both invariants for any screen contents, because both flags start set |
| Session.SessionStaysInStep | gbcolorpicker.c:215-371 | from power-on, at every later pass the next pass shows the exact palette on screen, saves exactly the palette, and causes no reload |

## Findings

| source | as written | input that shows it | evidently intended | confidence | as-written member | corrected member |
|---|---|---|---|---|---|---|
| gbcolorpicker.c:45 | `gray = c0*10/3 + c1*10/6 + c2/10`: the red and green weights are inverted, so `gray` runs up to 157 against a 5-bit threshold of 23 | the default red (31,0,0) scores 103 and gets black text; so does green (0,31,0), and so does the dark gray (5,5,5), which scores 24 | `c0*3/10 + c1*6/10 + c2/10`, the 0.299/0.587/0.114 formula on the 0..31 scale the threshold 23 (186/256) is written for; red, green and gray 5 get white text, and grays turn black from level 25 | medium, not executed | Color.WrittenWeightsInverted | Color.Luminance |

## Left out

- Display output: `show_hex_byte_xy`, `set_tile_xy`, `print_html`, `print_decimal` with `uint2bcd`, the cursor marker tiles, the title and date text, `cls`, `fill_rect`, `set_bkg_data`, and the font. Only the tile numbers of `hex` and the digit order of `print_raw` are modelled (`Bits`).
- Timing: `wait`, vblank pacing, and the Super Game Boy repeat-delay condition (gbcolorpicker.c:366-368). They change no state.
- The 20-frame initial-repeat delay (gbcolorpicker.c:374-384). It depends on live joypad polling. Each pass takes the `new_buttons` value it dispatches on as an input.
- Capability detection and the black-and-white refusal (gbcolorpicker.c:198-213). The hardware is a parameter.
- The attribute setup (`sgb_attr_blk`, the CGB attribute map, `VBK_REG`; gbcolorpicker.c:248-259). The screen model assumes each quadrant shows its own palette.
- The start-screen palette writes (gbcolorpicker.c:205-206, 242-245). The first pass rewrites entry 1 of every palette, because both flags start set. Every pass rewrites entry 3 (gbcolorpicker.c:292-294). Entry 2 of palette 0, set to white at gbcolorpicker.c:205, is never rewritten, and `Backend.Screen` does not model it.
- The initial bytes of `sgb_pal01` and `sgb_pal23` (gbcolorpicker.c:158-159). Every variable byte is rewritten before any packet is sent, so packets are built from the current words.
- `ENABLE_RAM`/`DISABLE_RAM` banking.
- The `rand`/`initrand`/`clock` generator. Select's four words are inputs, which also covers the unspecified order of the two `rand()` calls in each word.
- A foreign save-RAM write is modelled only during the wait. That is where the program idles. A write landing between a poll and the next flush is not modelled.
- The 8-bit storage of `uint5_t` values: components are `nat`, and the state invariant keeps them at most 31.
- Picker.Wait: its contract states only validity. What the wait does is stated by the `Session` lemmas about it (`WaitKeepsSynced`, `WaitKeepsShows`, `ExternalWriteAdopted`).
- Picker.Step: its contract states only validity. Its behaviour is stated by `Session.StepKeepsSynced`, `Session.StepKeepsShows` and `Session.SessionStaysInStep`.

=== FILE: backend.dfy ===
/** The two render backends: on a Game Boy Color every color has its own
    palette whose entries are written one by one; on a Super Game Boy the
    four colors travel in two fixed 16-byte packets, colors 0 and 1 in
    PAL01 and colors 2 and 3 in PAL23. The backend never reads anything
    back; its writes are recorded as events, and their effect on what the
    screen shows is modelled by ApplyAll. */
module Backend {
  import opened Bits

  /** The hardware detected once at startup. */
  datatype Hardware = SuperGameBoy | GameBoyColor

  /** One hardware write. */
  datatype Event =
    | SetPaletteEntry(palette: nat, entry: nat, value: Word)  // set_bkg_palette_entry
    | SgbTransfer(packet: seq<Byte>)                          // sgb_transfer

  /** Palette entry 1 holds a quadrant's color, entry 3 its text color. */
  const FillEntry: nat := 1
  const TextEntry: nat := 3

  /** Header bytes `SGB_PAL_01 << 3 | 1` and `SGB_PAL_23 << 3 | 1`: command
      code and a length of one packet. */
  const Pal01Header: Byte := 0x01
  const Pal23Header: Byte := 0x09

  /** The word both packets hard-code for the shared color 0 and for
      color 2 of each palette: white, bytes 0xff 0x7f. */
  const FixedWhite: Word := 0x7fff

  const PacketLength: nat := 16

  /** The little-endian word at bytes k and k + 1 of a packet. */
  function WordAt(p: seq<Byte>, k: nat): Word
    requires k + 1 < |p|
  {
    JoinBytes(p[k], p[k + 1])
  }

  /** A palette packet as the main loop leaves it before sending: the first
      palette's color at bytes 3-4 and text color at 7-8, the second
      palette's color at 9-10 and text color at 13-14, each low byte first. */
  function PalPacket(header: Byte, rawA: Word, textA: Word, rawB: Word, textB: Word): (p: seq<Byte>)
    ensures |p| == PacketLength && p[0] == header && p[PacketLength - 1] == 0
    ensures WordAt(p, 1) == FixedWhite && WordAt(p, 5) == FixedWhite && WordAt(p, 11) == FixedWhite
    ensures WordAt(p, 3) == rawA && WordAt(p, 7) == textA
    ensures WordAt(p, 9) == rawB && WordAt(p, 13) == textB
  {
    var (ra, rah) := SplitWord(rawA);
    var (ta, tah) := SplitWord(textA);
    var (rb, rbh) := SplitWord(rawB);
    var (tb, tbh) := SplitWord(textB);
    [header, 0xff, 0x7f, ra, rah, 0xff, 0x7f, ta, tah, rb, rbh, 0xff, 0x7f, tb, tbh, 0]
  }

  /** `sgb_pal01`: colors 0 and 1. */
  function Pal01(raw: seq<Word>, text: seq<Word>): seq<Byte>
    requires |raw| == 4 && |text| == 4
  {
    PalPacket(Pal01Header, raw[0], text[0], raw[1], text[1])
  }

  /** `sgb_pal23`: colors 2 and 3. */
  function Pal23(raw: seq<Word>, text: seq<Word>): seq<Byte>
    requires |raw| == 4 && |text| == 4
  {
    PalPacket(Pal23Header, raw[2], text[2], raw[3], text[3])
  }

  /** The text color of every palette, written on every pass of the main loop. */
  function TextWrites(text: seq<Word>): (ev: seq<Event>)
    requires |text| == 4
    ensures |ev| == 4
    ensures forall i :: 0 <= i < 4 ==> ev[i] == SetPaletteEntry(i, TextEntry, text[i])
  {
    seq(4, i requires 0 <= i < 4 => SetPaletteEntry(i, TextEntry, text[i]))
  }

  /** The palette update of a pass whose dirty flags are `changedSelected`
      and `changedAll`. */
  function Update(hw: Hardware, raw: seq<Word>, text: seq<Word>, sel: nat,
                  changedSelected: bool, changedAll: bool): (ev: seq<Event>)
    requires |raw| == 4 && |text| == 4 && sel < 4
    ensures !changedSelected && !changedAll ==> ev == []
    ensures hw == SuperGameBoy ==>
      (forall e :: e in ev ==> e == SgbTransfer(Pal01(raw, text)) || e == SgbTransfer(Pal23(raw, text)))
    ensures hw == SuperGameBoy ==>
      (SgbTransfer(Pal01(raw, text)) in ev <==> (changedSelected || changedAll) && (sel <= 1 || changedAll))
    ensures hw == SuperGameBoy ==>
      (SgbTransfer(Pal23(raw, text)) in ev <==> (changedSelected || changedAll) && (sel >= 2 || changedAll))
    ensures hw == SuperGameBoy ==>
      |ev| == (if (changedSelected || changedAll) && (sel <= 1 || changedAll) then 1 else 0)
            + (if (changedSelected || changedAll) && (sel >= 2 || changedAll) then 1 else 0)
    ensures hw == GameBoyColor ==> |ev| == (if changedAll then 4 else if changedSelected then 1 else 0)
    ensures hw == GameBoyColor ==>
      (forall e :: e in ev ==> e.SetPaletteEntry? && e.palette < 4 && e.entry == FillEntry && e.value == raw[e.palette])
    ensures hw == GameBoyColor ==>
      (forall i :: 0 <= i < 4 ==>
        (SetPaletteEntry(i, FillEntry, raw[i]) in ev <==> changedAll || (changedSelected && i == sel)))
  {
    if !(changedSelected || changedAll) then []
    else match hw
      case SuperGameBoy =>
        var pal01 := if sel <= 1 || changedAll then [SgbTransfer(Pal01(raw, text))] else [];
        var pal23 := if sel >= 2 || changedAll then [SgbTransfer(Pal23(raw, text))] else [];
        pal01 + pal23
      case GameBoyColor =>
        if changedAll then
          [SetPaletteEntry(0, FillEntry, raw[0]), SetPaletteEntry(1, FillEntry, raw[1]),
           SetPaletteEntry(2, FillEntry, raw[2]), SetPaletteEntry(3, FillEntry, raw[3])]
        else
          [SetPaletteEntry(sel, FillEntry, raw[sel])]
  }

  /** What the screen shows: per quadrant, its color (palette entry 1) and
      its text color (palette entry 3). */
  datatype Screen = Screen(fill: seq<Word>, text: seq<Word>) {
    predicate Valid() {
      |fill| == 4 && |text| == 4
    }
  }

  /** The effect of one write. A Game Boy Color has palette registers and no
      packet link; a Super Game Boy has the packet link and no palette
      registers, so each ignores the other's writes. */
  function ApplyEvent(hw: Hardware, s: Screen, e: Event): (r: Screen)
    requires s.Valid()
    ensures r.Valid()
  {
    match e
    case SetPaletteEntry(p, entry, v) =>
      if hw == GameBoyColor && p < 4 && entry == FillEntry then s.(fill := s.fill[p := v])
      else if hw == GameBoyColor && p < 4 && entry == TextEntry then s.(text := s.text[p := v])
      else s
    case SgbTransfer(pkt) =>
      if hw == SuperGameBoy && |pkt| == PacketLength && pkt[0] == Pal01Header then
        Screen(s.fill[0 := WordAt(pkt, 3)][1 := WordAt(pkt, 9)], s.text[0 := WordAt(pkt, 7)][1 := WordAt(pkt, 13)])
      else if hw == SuperGameBoy && |pkt| == PacketLength && pkt[0] == Pal23Header then
        Screen(s.fill[2 := WordAt(pkt, 3)][3 := WordAt(pkt, 9)], s.text[2 := WordAt(pkt, 7)][3 := WordAt(pkt, 13)])
      else s
  }

  /** The effect of a sequence of writes, in order. */
  function ApplyAll(hw: Hardware, s: Screen, ev: seq<Event>): (r: Screen)
    requires s.Valid()
    ensures r.Valid()
    decreases |ev|
  {
    if |ev| == 0 then s else ApplyAll(hw, ApplyEvent(hw, s, ev[0]), ev[1..])
  }

  lemma {:induction false} ApplyAllAppend(hw: Hardware, s: Screen, a: seq<Event>, b: seq<Event>)
    requires s.Valid()
    ensures ApplyAll(hw, s, a + b) == ApplyAll(hw, ApplyAll(hw, s, a), b)
    decreases |a|
  {
    if |a| > 0 {
      assert (a + b)[0] == a[0];
      assert (a + b)[1..] == a[1..] + b;
      ApplyAllAppend(hw, ApplyEvent(hw, s, a[0]), a[1..], b);
    } else {
      assert a + b == b;
    }
  }

  lemma ApplyOne(hw: Hardware, s: Screen, e: Event)
    requires s.Valid()
    ensures ApplyAll(hw, s, [e]) == ApplyEvent(hw, s, e)
  {
    assert [e][1..] == [];
  }

  lemma ApplyTwo(hw: Hardware, s: Screen, e0: Event, e1: Event)
    requires s.Valid()
    ensures ApplyAll(hw, s, [e0, e1]) == ApplyEvent(hw, ApplyEvent(hw, s, e0), e1)
  {
    assert [e0, e1][1..] == [e1];
    ApplyOne(hw, ApplyEvent(hw, s, e0), e1);
  }

  lemma ApplyFour(hw: Hardware, s: Screen, e0: Event, e1: Event, e2: Event, e3: Event)
    requires s.Valid()
    ensures ApplyAll(hw, s, [e0, e1, e2, e3])
         == ApplyEvent(hw, ApplyEvent(hw, ApplyEvent(hw, ApplyEvent(hw, s, e0), e1), e2), e3)
  {
    var s1 := ApplyEvent(hw, ApplyEvent(hw, s, e0), e1);
    assert [e0, e1, e2, e3][1..] == [e1, e2, e3];
    assert [e1, e2, e3][1..] == [e2, e3];
    ApplyTwo(hw, s1, e2, e3);
  }

  /** A quadrant the dirty flags promise to refresh. */
  predicate Covered(i: nat, sel: nat, changedSelected: bool, changedAll: bool)
  {
    changedAll || (changedSelected && i == sel)
  }

  /** The quadrants outside the flags' promise already show the palette. */
  predicate ShowsUncovered(s: Screen, raw: seq<Word>, text: seq<Word>,
                           sel: nat, changedSelected: bool, changedAll: bool)
    requires s.Valid() && |raw| == 4 && |text| == 4
  {
    forall i :: 0 <= i < 4 && !Covered(i, sel, changedSelected, changedAll) ==>
      s.fill[i] == raw[i] && s.text[i] == text[i]
  }

  /** The update policy is complete: if every quadrant the flags do not
      cover already shows its color, then one pass of text writes and
      palette update leaves the whole screen showing the palette, on either
      backend, although the Super Game Boy sends at most the one packet that
      holds a singly changed color. */
  lemma RefreshCompletes(hw: Hardware, s: Screen, raw: seq<Word>, text: seq<Word>,
                         sel: nat, changedSelected: bool, changedAll: bool)
    requires s.Valid() && |raw| == 4 && |text| == 4 && sel < 4
    requires ShowsUncovered(s, raw, text, sel, changedSelected, changedAll)
    ensures ApplyAll(hw, s, TextWrites(text) + Update(hw, raw, text, sel, changedSelected, changedAll))
         == Screen(raw, text)
  {
    var tw := TextWrites(text);
    var up := Update(hw, raw, text, sel, changedSelected, changedAll);
    ApplyAllAppend(hw, s, tw, up);
    TextWritesEffect(hw, s, text);
    var mid := ApplyAll(hw, s, tw);
    if hw == SuperGameBoy {
      SgbRefresh(mid, raw, text, sel, changedSelected, changedAll);
    } else {
      CgbRefresh(mid, raw, text, sel, changedSelected, changedAll);
    }
  }

  lemma SgbRefresh(s: Screen, raw: seq<Word>, text: seq<Word>,
                   sel: nat, changedSelected: bool, changedAll: bool)
    requires s.Valid() && |raw| == 4 && |text| == 4 && sel < 4
    requires ShowsUncovered(s, raw, text, sel, changedSelected, changedAll)
    ensures ApplyAll(SuperGameBoy, s, Update(SuperGameBoy, raw, text, sel, changedSelected, changedAll))
         == Screen(raw, text)
  {
    var t01, t23 := SgbTransfer(Pal01(raw, text)), SgbTransfer(Pal23(raw, text));
    ApplyTwo(SuperGameBoy, s, t01, t23);
    ApplyOne(SuperGameBoy, s, t01);
    ApplyOne(SuperGameBoy, s, t23);
  }

  lemma CgbRefresh(s: Screen, raw: seq<Word>, text: seq<Word>,
                   sel: nat, changedSelected: bool, changedAll: bool)
    requires s.Valid() && |raw| == 4 && |text| == 4 && sel < 4
    requires s.text == text
    requires ShowsUncovered(s, raw, text, sel, changedSelected, changedAll)
    ensures ApplyAll(GameBoyColor, s, Update(GameBoyColor, raw, text, sel, changedSelected, changedAll))
         == Screen(raw, text)
  {
    var ev := Update(GameBoyColor, raw, text, sel, changedSelected, changedAll);
    if changedAll {
      ApplyFour(GameBoyColor, s,
        SetPaletteEntry(0, FillEntry, raw[0]), SetPaletteEntry(1, FillEntry, raw[1]),
        SetPaletteEntry(2, FillEntry, raw[2]), SetPaletteEntry(3, FillEntry, raw[3]));
      assert s.fill[0 := raw[0]][1 := raw[1]][2 := raw[2]][3 := raw[3]] == raw;
    } else if changedSelected {
      ApplyOne(GameBoyColor, s, SetPaletteEntry(sel, FillEntry, raw[sel]));
      assert s.fill[sel := raw[sel]] == raw;
    } else {
      assert ev == [];
      assert s.fill == raw;
    }
  }

  /** The per-pass text writes set every text color on a Game Boy Color and
      change nothing on a Super Game Boy. */
  lemma TextWritesEffect(hw: Hardware, s: Screen, text: seq<Word>)
    requires s.Valid() && |text| == 4
    ensures hw == SuperGameBoy ==> ApplyAll(hw, s, TextWrites(text)) == s
    ensures hw == GameBoyColor ==> ApplyAll(hw, s, TextWrites(text)) == s.(text := text)
  {
    var tw := TextWrites(text);
    assert tw == [tw[0], tw[1], tw[2], tw[3]];
    ApplyFour(hw, s, tw[0], tw[1], tw[2], tw[3]);
  }
}

=== FILE: bits.dfy ===
/** Fixed-width unsigned integers of the Game Boy C toolchain, and the byte
    and nibble helpers the picker uses to show and transmit 16-bit colors.

    Shifts and masks on unsigned values are written as division and modulo
    by powers of two; an OR of two values whose bits do not overlap is
    written as a sum. */
module Bits {

  type Byte = b: int | 0 <= b < 0x100
  type Word = w: int | 0 <= w < 0x1_0000
  type Nibble = n: int | 0 <= n < 0x10

  /** Quotient and remainder are the unique pair with `x == k * q + r`. */
  lemma DivModUnique(x: int, k: int, q: int, r: int)
    requires 0 < k && 0 <= r < k && x == k * q + r
    ensures x / k == q && x % k == r
  {
    var q', r' := x / k, x % k;
    assert x == k * q' + r';
    if q' > q {
      MulMonotone(k, q + 1, q');
    } else if q' < q {
      MulMonotone(k, q' + 1, q);
    }
  }

  lemma MulMonotone(k: int, a: int, b: int)
    requires 0 < k && a <= b
    ensures k * a <= k * b
  {
    assert k * b - k * a == k * (b - a);
  }

  lemma DivMonotone(a: nat, b: nat, k: nat)
    requires a <= b && 0 < k
    ensures a / k <= b / k
  {
    if a / k > b / k {
      MulMonotone(k, b / k + 1, a / k);
    }
  }

  /** The low byte `w & 0xff` and the high byte `(w >> 8) & 0xff` of a word. */
  function SplitWord(w: Word): (r: (Byte, Byte))
    ensures r.0 + 0x100 * r.1 == w
  {
    (w % 0x100, w / 0x100)
  }

  /** `lo | hi << 8`, the inverse of SplitWord. */
  function JoinBytes(lo: Byte, hi: Byte): (w: Word)
    ensures SplitWord(w) == (lo, hi)
  {
    lo + 0x100 * hi
  }

  /** The high nibble `(b >> 4) & 0xf` and low nibble `b & 0x0f` of a byte. */
  function SplitByte(b: Byte): (r: (Nibble, Nibble))
    ensures 0x10 * r.0 + r.1 == b
  {
    (b / 0x10, b % 0x10)
  }

  /** The characters the font shows for the sixteen hex digits. */
  const HexGlyphs: string := "0123456789abcdef"

  /** The font's tile 0 shows the ASCII character 0x20 (space), and tiles
      follow ASCII order from there. */
  const FontFirstChar: int := 0x20

  /** `hex`: the tile that shows a hex digit. */
  function HexTile(n: Nibble): (t: Byte)
    ensures t == HexGlyphs[n] as int - FontFirstChar
  {
    if n < 10 then n + 0x10 else n - 10 + 0x41
  }

  lemma HexTileInjective(m: Nibble, n: Nibble)
    ensures HexTile(m) == HexTile(n) ==> m == n
  {
  }

  /** The four digits `print_raw` shows for a word: the high byte first,
      each byte high nibble first. */
  function RawNibbles(w: Word): (ns: seq<Nibble>)
    ensures |ns| == 4
    ensures 0x1000 * (ns[0] as int) + 0x100 * (ns[1] as int) + 0x10 * (ns[2] as int) + ns[3] == w
  {
    var (lo, hi) := SplitWord(w);
    var (h1, h0) := SplitByte(hi);
    var (l1, l0) := SplitByte(lo);
    [h1, h0, l1, l0]
  }

  /** The tiles `print_raw` draws for a word. */
  function RawTiles(w: Word): (ts: seq<Byte>)
    ensures |ts| == 4
  {
    var ns := RawNibbles(w);
    [HexTile(ns[0]), HexTile(ns[1]), HexTile(ns[2]), HexTile(ns[3])]
  }

  /** Two different words never show the same four tiles. */
  lemma RawTilesInjective(v: Word, w: Word)
    ensures RawTiles(v) == RawTiles(w) ==> v == w
  {
    if RawTiles(v) == RawTiles(w) {
      var nv, nw := RawNibbles(v), RawNibbles(w);
      forall k | 0 <= k < 4
        ensures nv[k] == nw[k]
      {
        assert RawTiles(v)[k] == HexTile(nv[k]);
        HexTileInjective(nv[k], nw[k]);
      }
    }
  }
}

=== FILE: buttons.dfy ===
/** Joypad bit masks and the single-button actions the main loop's
    `switch (new_buttons)` dispatches on. */
module Buttons {
  import opened Bits
  import opened Optional

  /** The joypad masks J_RIGHT .. J_START: one bit per button. */
  const JRight: Byte := 0x01
  const JLeft: Byte := 0x02
  const JUp: Byte := 0x04
  const JDown: Byte := 0x08
  const JA: Byte := 0x10
  const JB: Byte := 0x20
  const JSelect: Byte := 0x40
  const JStart: Byte := 0x80

  /** The seven cases of the dispatch. */
  datatype Action =
    | MoveLeft      // J_LEFT: previous component
    | MoveRight     // J_RIGHT: next component
    | Increment     // J_UP: one up, at most 31
    | Decrement     // J_DOWN: one down, at least 0
    | ToggleMax     // J_A: 31, or back to the backup
    | ToggleMin     // J_B: 0, or back to the backup
    | Randomize     // J_SELECT: four random colors

  /** The exact mask that selects an action. */
  function Code(a: Action): Byte
  {
    match a
    case MoveLeft => JLeft
    case MoveRight => JRight
    case Increment => JUp
    case Decrement => JDown
    case ToggleMax => JA
    case ToggleMin => JB
    case Randomize => JSelect
  }

  /** The action a `new_buttons` value selects: only an exact match with one
      of the seven masks acts; every other value, including Start alone and
      any combination of buttons, selects nothing. */
  function Decode(buttons: Byte): (r: Option<Action>)
    ensures r.Some? ==> Code(r.value) == buttons
    ensures r.None? ==> forall a: Action :: Code(a) != buttons
  {
    if buttons == JLeft then Some(MoveLeft)
    else if buttons == JRight then Some(MoveRight)
    else if buttons == JUp then Some(Increment)
    else if buttons == JDown then Some(Decrement)
    else if buttons == JA then Some(ToggleMax)
    else if buttons == JB then Some(ToggleMin)
    else if buttons == JSelect then Some(Randomize)
    else None
  }

  /** Pressing one recognised button alone selects its action. */
  lemma DecodeCode(a: Action)
    ensures Decode(Code(a)) == Some(a)
  {
  }

  /** With no button pressed nothing is selected. */
  lemma DecodeNothing()
    ensures Decode(0) == None
  {
  }

  /** Every action's mask is a single bit, so pressing two buttons at once
      selects nothing. */
  lemma CombinedButtonsSelectNothing(a: Action, b: Action)
    requires a != b
    ensures Code(a) + Code(b) < 0x100
    ensures Decode(Code(a) + Code(b)) == None
  {
  }
}

=== FILE: color.dfy ===
/** The color store's values: a color is three 5-bit components, stored
    and transmitted as one 15-bit word (component 0 in bits 0-4, component
    1 in bits 5-9, component 2 in bits 10-14, bit 15 unused). */
module Color {
  import opened Bits

  /** UINT5_MIN and UINT5_MAX: the range of one component. */
  const ComponentMin: nat := 0x00
  const ComponentMax: nat := 0x1f

  /** A color as the picker stores it: `uint5_t colors[i][3]`. Each field is
      an 8-bit variable that the picker keeps within 0..31. */
  datatype Rgb = Rgb(c0: nat, c1: nat, c2: nat) {

    predicate Valid() {
      c0 <= ComponentMax && c1 <= ComponentMax && c2 <= ComponentMax
    }

    /** `colors[i][k]` */
    function Get(k: nat): nat
      requires k < 3
    {
      if k == 0 then c0 else if k == 1 then c1 else c2
    }

    /** `colors[i][k] = v` */
    function With(k: nat, v: nat): (r: Rgb)
      requires k < 3
      ensures r.Get(k) == v
      ensures forall j :: 0 <= j < 3 && j != k ==> r.Get(j) == Get(j)
    {
      if k == 0 then this.(c0 := v) else if k == 1 then this.(c1 := v) else this.(c2 := v)
    }
  }

  /** The palette the picker starts with when nothing valid is saved:
      white, red, green and blue. */
  const Defaults: seq<Rgb> := [
    Rgb(ComponentMax, ComponentMax, ComponentMax),
    Rgb(ComponentMax, ComponentMin, ComponentMin),
    Rgb(ComponentMin, ComponentMax, ComponentMin),
    Rgb(ComponentMin, ComponentMin, ComponentMax)
  ]

  /** The body of `loadColorsFromPalette` for one color: the three 5-bit
      fields `raw & 0x1f`, `(raw >> 5) & 0x1f`, `(raw >> 10) & 0x1f`. */
  function Unpack(w: Word): (c: Rgb)
    ensures c.Valid()
    ensures c.c0 + 0x20 * c.c1 + 0x400 * c.c2 == w % 0x8000
  {
    var q := w / 0x20;
    var q2 := q / 0x20;
    var q3 := q2 / 0x20;
    assert w == 0x400 * q2 + (w % 0x20 + 0x20 * (q % 0x20));
    DivModUnique(w, 0x400, q2, w % 0x20 + 0x20 * (q % 0x20));
    assert w == 0x8000 * q3 + (w % 0x20 + 0x20 * (q % 0x20) + 0x400 * (q2 % 0x20));
    DivModUnique(w, 0x8000, q3, w % 0x20 + 0x20 * (q % 0x20) + 0x400 * (q2 % 0x20));
    Rgb(w % 0x20, (w / 0x20) % 0x20, (w / 0x400) % 0x20)
  }

  /** `RGB(c0, c1, c2)`: the packed 15-bit color. */
  function Pack(c: Rgb): (w: Word)
    requires c.Valid()
    ensures w < 0x8000
    ensures Unpack(w) == c
  {
    var w := c.c0 + 0x20 * c.c1 + 0x400 * c.c2;
    DivModUnique(w, 0x20, c.c1 + 0x20 * c.c2, c.c0);
    DivModUnique(w / 0x20, 0x20, c.c2, c.c1);
    DivModUnique(w, 0x400, c.c2, c.c0 + 0x20 * c.c1);
    DivModUnique(c.c2, 0x20, 0, c.c2);
    c.c0 + 0x20 * c.c1 + 0x400 * c.c2
  }

  /** Repacking an unpacked word gives the word with bit 15 cleared. */
  lemma PackUnpack(w: Word)
    ensures Pack(Unpack(w)) == w % 0x8000
  {
  }

  /** Below bit 15, unpacking is one-to-one. */
  lemma UnpackInjective(v: Word, w: Word)
    requires v < 0x8000 && w < 0x8000
    ensures Unpack(v) == Unpack(w) ==> v == w
  {
    DivModUnique(v, 0x8000, 0, v);
    DivModUnique(w, 0x8000, 0, w);
  }

  /** Packing is one-to-one on valid colors. */
  lemma PackInjective(c: Rgb, d: Rgb)
    requires c.Valid() && d.Valid()
    ensures Pack(c) == Pack(d) ==> c == d
  {
  }

  /** `EXTEND`: widens a 5-bit component to 8 bits, `(v << 3) | (v >> 2)`;
      the two parts occupy disjoint bits. */
  function Extend(v: nat): (e: Byte)
    requires v <= ComponentMax
    ensures e / 8 == v
    ensures e % 8 == v / 4
  {
    8 * v + v / 4
  }

  /** Widening maps 0 to 0 and 31 to 255, and keeps the order of components. */
  lemma ExtendSpansByteRange(u: nat, v: nat)
    requires u <= ComponentMax && v <= ComponentMax
    ensures Extend(ComponentMin) == 0 && Extend(ComponentMax) == 0xff
    ensures u < v <==> Extend(u) < Extend(v)
  {
  }

  /** The two colors `text_color` chooses between. */
  datatype Contrast = Black | White

  /** The darkness threshold of `text_color`: 186 out of 255, brought to
      the 5-bit domain. */
  const ContrastThreshold: nat := 23

  /** `text_color`'s integer luminance as the code computes it: the weights
      are 10/3, 10/6 and 1/10 where the perceived-brightness formula it
      follows has 0.299, 0.587 and 0.114. */
  function WrittenLuminance(c: Rgb): nat
  {
    c.c0 * 10 / 3 + c.c1 * 10 / 6 + c.c2 / 10
  }

  /** `text_color` with the code's weights. */
  function WrittenTextColor(c: Rgb): Contrast
  {
    if WrittenLuminance(c) > ContrastThreshold then Black else White
  }

  /** The code's luminance leaves the 5-bit scale of the threshold: pure red
      scores 103 and white 157. So the default red and green backgrounds,
      and a gray as dark as level 5 of 31, all get black text, where the
      intended weights give each of them white text. */
  lemma WrittenWeightsInverted()
    ensures WrittenLuminance(Rgb(ComponentMax, ComponentMax, ComponentMax)) == 157
    ensures WrittenLuminance(Rgb(ComponentMax, 0, 0)) == 103
    ensures WrittenTextColor(Rgb(ComponentMax, 0, 0)) == Black && TextColor(Rgb(ComponentMax, 0, 0)) == White
    ensures WrittenTextColor(Rgb(0, ComponentMax, 0)) == Black && TextColor(Rgb(0, ComponentMax, 0)) == White
    ensures WrittenTextColor(Rgb(5, 5, 5)) == Black && TextColor(Rgb(5, 5, 5)) == White
  {
  }

  /** On a valid color the code's luminance fits the `uint16_t` it is held in. */
  lemma WrittenLuminanceBounded(c: Rgb)
    requires c.Valid()
    ensures WrittenLuminance(c) <= 157
  {
    DivMonotone(c.c0 * 10, 310, 3);
    DivMonotone(c.c1 * 10, 310, 6);
    DivMonotone(c.c2, 31, 10);
  }

  /** With the code's weights too, white gets black text and black gets
      white text. */
  lemma WrittenTextColorExtremes()
    ensures WrittenTextColor(Rgb(ComponentMax, ComponentMax, ComponentMax)) == Black
    ensures WrittenTextColor(Rgb(ComponentMin, ComponentMin, ComponentMin)) == White
  {
  }

  /** With the code's weights, lightening any component never turns black
      text white. */
  lemma WrittenTextColorMonotone(c: Rgb, d: Rgb)
    requires c.c0 <= d.c0 && c.c1 <= d.c1 && c.c2 <= d.c2
    ensures WrittenLuminance(c) <= WrittenLuminance(d)
    ensures WrittenTextColor(c) == Black ==> WrittenTextColor(d) == Black
  {
    DivMonotone(c.c0 * 10, d.c0 * 10, 3);
    DivMonotone(c.c1 * 10, d.c1 * 10, 6);
    DivMonotone(c.c2, d.c2, 10);
  }

  /** With the code's weights a gray already gets black text from level 5. */
  lemma WrittenGrayTextColor(v: nat)
    ensures WrittenTextColor(Rgb(v, v, v)) == Black <==> v >= 5
  {
    if v >= 5 {
      DivMonotone(50, v * 10, 3);
      DivMonotone(50, v * 10, 6);
    } else {
      assert v == 0 || v == 1 || v == 2 || v == 3 || v == 4;
    }
  }

  /** The intended luminance, 0.3 red + 0.6 green + 0.1 blue with every
      division truncating: a weighted mean of the components, so it stays
      on their 5-bit scale and is comparable with the threshold. */
  function Luminance(c: Rgb): (l: nat)
    ensures 10 * l <= 3 * c.c0 + 6 * c.c1 + c.c2 < 10 * l + 30
    ensures c.Valid() ==> l <= ComponentMax
  {
    c.c0 * 3 / 10 + c.c1 * 6 / 10 + c.c2 / 10
  }

  /** `text_color` with the intended weights: black text on a light
      background, white otherwise. */
  function TextColor(c: Rgb): Contrast
  {
    if Luminance(c) > ContrastThreshold then Black else White
  }

  /** White gets black text and black gets white text. */
  lemma TextColorExtremes()
    ensures Luminance(Rgb(ComponentMax, ComponentMax, ComponentMax)) == 30
    ensures TextColor(Rgb(ComponentMax, ComponentMax, ComponentMax)) == Black
    ensures TextColor(Rgb(ComponentMin, ComponentMin, ComponentMin)) == White
  {
  }

  /** Lightening any component never turns black text white. */
  lemma TextColorMonotone(c: Rgb, d: Rgb)
    requires c.c0 <= d.c0 && c.c1 <= d.c1 && c.c2 <= d.c2
    ensures Luminance(c) <= Luminance(d)
    ensures TextColor(c) == Black ==> TextColor(d) == Black
  {
    DivMonotone(c.c0 * 3, d.c0 * 3, 10);
    DivMonotone(c.c1 * 6, d.c1 * 6, 10);
    DivMonotone(c.c2, d.c2, 10);
  }

  /** On a gray (all components equal) the text turns black from level 25
      up, the level nearest to 186 out of 255 that the truncating weights
      allow. */
  lemma GrayTextColor(v: nat)
    ensures TextColor(Rgb(v, v, v)) == Black <==> v >= 25
  {
    if v >= 25 {
      TextColorMonotone(Rgb(25, 25, 25), Rgb(v, v, v));
    } else if v == 24 {
      assert Luminance(Rgb(v, v, v)) == 23;
    }
  }

  /** RGB_BLACK and RGB_WHITE, the color words of black and white. */
  const RgbBlack: Word := 0x0000
  const RgbWhite: Word := 0x7fff

  lemma BlackAndWhiteWords()
    ensures Unpack(RgbBlack) == Rgb(ComponentMin, ComponentMin, ComponentMin)
    ensures Unpack(RgbWhite) == Rgb(ComponentMax, ComponentMax, ComponentMax)
  {
  }

  /** The word `text_color` returns for a background color, computed as the
      code computes it. */
  function TextWord(c: Rgb): (w: Word)
    ensures w == RgbBlack <==> WrittenLuminance(c) > ContrastThreshold
    ensures w == RgbWhite <==> WrittenLuminance(c) <= ContrastThreshold
  {
    match WrittenTextColor(c)
    case Black => RgbBlack
    case White => RgbWhite
  }
}

=== FILE: cursor.dfy ===
/** The selection cursor: which of the four colors and which of its three
    components Left and Right have selected. The walk visits the twelve
    positions in the order 3 * color + component and wraps around. */
module Cursor {
  import opened Bits

  const ColorCount: nat := 4
  const ComponentCount: nat := 3
  const PositionCount: nat := 12

  /** `selected_color` and `selected_component`. */
  datatype Pos = Pos(color: nat, comp: nat)

  predicate Valid(p: Pos) {
    p.color < ColorCount && p.comp < ComponentCount
  }

  /** The position's place in the walk. */
  function Index(p: Pos): nat {
    ComponentCount * p.color + p.comp
  }

  lemma IndexInjective(p: Pos, q: Pos)
    requires Valid(p) && Valid(q)
    ensures Index(p) == Index(q) ==> p == q
  {
  }

  /** The Left case: the previous component, or the last component of the
      previous color, wrapping from the first color to the fourth. */
  function Left(p: Pos): (q: Pos)
    ensures Valid(p) ==> Valid(q) && Index(q) == (Index(p) + PositionCount - 1) % PositionCount
  {
    if p.comp > 0 then p.(comp := p.comp - 1)
    else if p.color > 0 then Pos(p.color - 1, 2)
    else Pos(3, 2)
  }

  /** The Right case: the next component, or the first component of the
      next color, wrapping from the fourth color to the first. */
  function Right(p: Pos): (q: Pos)
    ensures Valid(p) ==> Valid(q) && Index(q) == (Index(p) + 1) % PositionCount
  {
    if p.comp < 2 then p.(comp := p.comp + 1)
    else if p.color < 3 then Pos(p.color + 1, 0)
    else Pos(0, 0)
  }

  lemma LeftUndoesRight(p: Pos)
    requires Valid(p)
    ensures Left(Right(p)) == p
  {
    IndexInjective(Left(Right(p)), p);
  }

  lemma RightUndoesLeft(p: Pos)
    requires Valid(p)
    ensures Right(Left(p)) == p
  {
    IndexInjective(Right(Left(p)), p);
  }

  /** Reducing before adding does not change the remainder. */
  lemma ModAdd(x: nat, y: nat)
    ensures ((x % PositionCount) + y) % PositionCount == (x + y) % PositionCount
  {
    var q, r := x / PositionCount, x % PositionCount;
    var k, m := (r + y) / PositionCount, (r + y) % PositionCount;
    DivModUnique(x + y, PositionCount, q + k, m);
  }

  /** One more Right after `n - 1` of them. */
  lemma RightStep(p: Pos, q: Pos, n: nat)
    requires Valid(q) && 0 < n && Index(q) == (Index(p) + n - 1) % PositionCount
    ensures Valid(Right(q)) && Index(Right(q)) == (Index(p) + n) % PositionCount
  {
    ModAdd(Index(p) + n - 1, 1);
  }

  /** One more Left after `n - 1` of them. */
  lemma LeftStep(p: Pos, q: Pos, n: nat)
    requires Valid(q) && 0 < n && (Index(q) + n - 1) % PositionCount == Index(p)
    ensures Valid(Left(q)) && (Index(Left(q)) + n) % PositionCount == Index(p)
  {
    var y := Index(q) + n - 1;
    ModAdd(Index(q) + PositionCount - 1, n);
    DivModUnique(y + PositionCount, PositionCount, y / PositionCount + 1, y % PositionCount);
  }

  /** `n` presses of Right advance the cursor `n` places around the walk. */
  function Rights(p: Pos, n: nat): (q: Pos)
    requires Valid(p)
    ensures Valid(q) && Index(q) == (Index(p) + n) % PositionCount
  {
    if n == 0 then
      DivModUnique(Index(p), PositionCount, 0, Index(p));
      p
    else
      var q := Rights(p, n - 1);
      RightStep(p, q, n);
      Right(q)
  }

  /** `n` presses of Left take the cursor `n` places back around the walk. */
  function Lefts(p: Pos, n: nat): (q: Pos)
    requires Valid(p)
    ensures Valid(q) && (Index(q) + n) % PositionCount == Index(p)
  {
    if n == 0 then
      DivModUnique(Index(p), PositionCount, 0, Index(p));
      p
    else
      var q := Lefts(p, n - 1);
      LeftStep(p, q, n);
      Left(q)
  }

  /** Twelve Rights, or any multiple of twelve, bring the cursor back. */
  lemma RightsCycle(p: Pos, n: nat)
    requires Valid(p) && n % PositionCount == 0
    ensures Rights(p, n) == p
  {
    var k := n / PositionCount;
    assert n == PositionCount * k;
    DivModUnique(Index(p) + n, PositionCount, k, Index(p));
    IndexInjective(Rights(p, n), p);
  }

  /** Twelve Lefts, or any multiple of twelve, bring the cursor back. */
  lemma LeftsCycle(p: Pos, n: nat)
    requires Valid(p) && n % PositionCount == 0
    ensures Lefts(p, n) == p
  {
    var k := n / PositionCount;
    assert n == PositionCount * k;
    var q := Lefts(p, n);
    DivModUnique(Index(q) + n, PositionCount, k, Index(q));
    IndexInjective(q, p);
  }

  /** Every position is reached from every other by fewer than twelve Rights. */
  lemma RightsVisitEveryPosition(p: Pos, q: Pos)
    requires Valid(p) && Valid(q)
    ensures exists n :: 0 <= n < PositionCount && Rights(p, n) == q
  {
    var n := if Index(p) <= Index(q) then Index(q) - Index(p) else Index(q) + PositionCount - Index(p);
    if Index(p) <= Index(q) {
      DivModUnique(Index(p) + n, PositionCount, 0, Index(q));
    } else {
      DivModUnique(Index(p) + n, PositionCount, 1, Index(q));
    }
    IndexInjective(Rights(p, n), q);
  }
}

=== FILE: optional.dfy ===
/** A value that may be absent: the action a joypad value selects (none for
    a value that is no single-button mask), and a write to the save RAM from
    outside the program during one wait (none when nobody writes). Both
    `Buttons` and `Picker` use it, so it sits in a module of its own. */
module Optional {

  datatype Option<+T> = None | Some(value: T)
}

=== FILE: picker.dfy ===
/** The picker's state machine: the static locals of the main loop lifted
    into one State record, and one pure function per piece of the loop —
    the startup load, the per-pass repack, flush and palette update, the
    idle poll of the save RAM, and the seven button actions. */
module Picker {
  import opened Bits
  import opened Optional
  import opened Color
  import opened Cursor
  import opened Buttons
  import opened Backend

  /** `colors`, `raw_colors`, the first four words of the save RAM, the
      cursor, `backup_component` and the two dirty flags. */
  datatype State = State(
    colors: seq<Rgb>,
    raw: seq<Word>,
    sram: seq<Word>,
    cursor: Pos,
    backup: nat,
    changedSelected: bool,
    changedAll: bool)
  {
    predicate Valid() {
      && |colors| == ColorCount && |raw| == ColorCount && |sram| == ColorCount
      && (forall i :: 0 <= i < |colors| ==> colors[i].Valid())
      && Cursor.Valid(cursor)
      && backup <= ComponentMax
    }

    /** At least one dirty flag is set: the next pass saves and repaints. */
    predicate Dirty() {
      changedSelected || changedAll
    }
  }

  /** `colors[p.color][p.comp]` */
  function At(s: State, p: Pos): (v: nat)
    requires s.Valid() && Cursor.Valid(p)
    ensures v <= ComponentMax
  {
    s.colors[p.color].Get(p.comp)
  }

  /** The value under the cursor. */
  function Selected(s: State): (v: nat)
    requires s.Valid()
    ensures v <= ComponentMax
  {
    At(s, s.cursor)
  }

  /** The component cells of `r` other than the one under `s`'s cursor hold
      what they held in `s`. */
  predicate OthersUnchanged(s: State, r: State)
    requires s.Valid() && r.Valid()
  {
    forall i, k :: 0 <= i < ColorCount && 0 <= k < ComponentCount && Pos(i, k) != s.cursor ==>
      At(r, Pos(i, k)) == At(s, Pos(i, k))
  }

  /** `colors[selected_color][selected_component] = v` */
  function SetSelected(s: State, v: nat): (r: State)
    requires s.Valid() && v <= ComponentMax
    ensures r.Valid() && Selected(r) == v && OthersUnchanged(s, r)
    ensures r.raw == s.raw && r.sram == s.sram && r.cursor == s.cursor && r.backup == s.backup
    ensures r.changedSelected == s.changedSelected && r.changedAll == s.changedAll
  {
    var c := s.cursor.color;
    var r := s.(colors := s.colors[c := s.colors[c].With(s.cursor.comp, v)]);
    assert OthersUnchanged(s, r) by {
      forall i, k | 0 <= i < ColorCount && 0 <= k < ComponentCount && Pos(i, k) != s.cursor
        ensures At(r, Pos(i, k)) == At(s, Pos(i, k))
      {
        if i == c {
          assert k != s.cursor.comp;
        }
      }
    }
    r
  }

  /** `loadColorsFromPalette`: keep the four words as `raw_colors` and split
      each into its three components. */
  function LoadColorsFromPalette(s: State, palette: seq<Word>): (r: State)
    requires |palette| == ColorCount
    ensures r.raw == palette && |r.colors| == ColorCount
    ensures forall i :: 0 <= i < ColorCount ==> r.colors[i].Valid() && Pack(r.colors[i]) == palette[i] % 0x8000
    ensures r.sram == s.sram && r.cursor == s.cursor && r.backup == s.backup
    ensures r.changedSelected == s.changedSelected && r.changedAll == s.changedAll
    ensures s.Valid() ==> r.Valid()
  {
    s.(raw := palette, colors := seq(ColorCount, i requires 0 <= i < ColorCount => Unpack(palette[i])))
  }

  /** The save RAM holds a palette unless its first word is still the
      erased value 0xffff. */
  const Erased: Word := 0xffff

  /** The state entering the main loop: the default palette, or the saved
      one when the first save word is not erased; cursor on component 0 of
      color 0 with its value backed up; both dirty flags set, so the first
      pass paints and saves everything. `raw_colors` starts zeroed unless
      the save is loaded. */
  function Startup(sram: seq<Word>): (s: State)
    requires |sram| == ColorCount
    ensures s.Valid() && s.sram == sram
    ensures s.cursor == Pos(0, 0) && s.backup == Selected(s)
    ensures s.changedSelected && s.changedAll
    ensures sram[0] == Erased ==> s.colors == Defaults && s.raw == [0, 0, 0, 0]
    ensures sram[0] != Erased ==> s.raw == sram
    ensures sram[0] != Erased ==> forall i :: 0 <= i < ColorCount ==> Pack(s.colors[i]) == sram[i] % 0x8000
  {
    var init := State(Defaults, [0, 0, 0, 0], sram, Pos(0, 0), 0, true, true);
    var loaded := if sram[0] != Erased then LoadColorsFromPalette(init, sram) else init;
    loaded.(backup := loaded.colors[0].c0)
  }

  /** The packed word of every color. */
  function Packs(colors: seq<Rgb>): (ws: seq<Word>)
    requires |colors| == ColorCount && forall i :: 0 <= i < ColorCount ==> colors[i].Valid()
    ensures |ws| == ColorCount
    ensures forall i :: 0 <= i < ColorCount ==> ws[i] < 0x8000 && Unpack(ws[i]) == colors[i]
  {
    seq(ColorCount, i requires 0 <= i < ColorCount => Pack(colors[i]))
  }

  /** The text-color word of every color. */
  function TextWords(colors: seq<Rgb>): (ws: seq<Word>)
    requires |colors| == ColorCount
    ensures |ws| == ColorCount
    ensures forall i :: 0 <= i < ColorCount ==>
      ws[i] == (if WrittenLuminance(colors[i]) > ContrastThreshold then RgbBlack else RgbWhite)
  {
    var ws := seq(ColorCount, i requires 0 <= i < ColorCount => TextWord(colors[i]));
    assert forall i :: 0 <= i < ColorCount ==> ws[i] == TextWord(colors[i]);
    ws
  }

  /** On the default palette the code's weights give black text on white,
      red and green, and white text only on blue. */
  lemma DefaultTextWords()
    ensures TextWords(Defaults) == [RgbBlack, RgbBlack, RgbBlack, RgbWhite]
  {
    var ws := TextWords(Defaults);
    assert ws[0] == RgbBlack && ws[1] == RgbBlack && ws[2] == RgbBlack && ws[3] == RgbWhite;
  }

  /** One pass's result: the state after it and the hardware writes it made. */
  datatype Pass = Pass(next: State, events: seq<Event>)

  /** The top of the main loop up to the clearing of the dirty flags: repack
      every color, write every palette's text color, and, if a flag is set,
      save the four words and repaint by the backend's policy. */
  function Frame(hw: Hardware, s: State): (r: Pass)
    requires s.Valid()
    ensures r.next.Valid()
    ensures forall i :: 0 <= i < ColorCount ==> Unpack(r.next.raw[i]) == s.colors[i] && r.next.raw[i] < 0x8000
    ensures s.Dirty() ==> r.next.sram == r.next.raw
    ensures !s.Dirty() ==> r.next.sram == s.sram
    ensures !r.next.Dirty()
    ensures r.next.colors == s.colors && r.next.cursor == s.cursor && r.next.backup == s.backup
    ensures !s.Dirty() ==> forall e :: e in r.events ==> e.SetPaletteEntry? && e.entry == TextEntry
  {
    var raw := Packs(s.colors);
    var text := TextWords(s.colors);
    var events := TextWrites(text) + Update(hw, raw, text, s.cursor.color, s.changedSelected, s.changedAll);
    var sram := if s.Dirty() then raw else s.sram;
    Pass(s.(raw := raw, sram := sram, changedSelected := false, changedAll := false), events)
  }

  /** Some save word differs from the word the picker last packed or loaded. */
  predicate SaveChanged(s: State)
    requires s.Valid()
  {
    exists i :: 0 <= i < ColorCount && s.sram[i] != s.raw[i]
  }

  /** One idle poll of the save RAM: on any difference, reload all four
      colors from it and set both dirty flags; otherwise change nothing. */
  function Poll(s: State): (r: State)
    requires s.Valid()
    ensures r.Valid()
    ensures SaveChanged(s) ==> r.raw == s.sram && r.changedSelected && r.changedAll
    ensures SaveChanged(s) ==> forall i :: 0 <= i < ColorCount ==> Pack(r.colors[i]) == s.sram[i] % 0x8000
    ensures !SaveChanged(s) ==> r == s
    ensures r.sram == s.sram && r.cursor == s.cursor && r.backup == s.backup
    ensures !SaveChanged(r)
  {
    if SaveChanged(s) then
      LoadColorsFromPalette(s, s.sram).(changedSelected := true, changedAll := true)
    else
      s
  }

  /** J_LEFT: move the cursor back and back up the value it lands on. */
  function MoveLeft(s: State): (r: State)
    requires s.Valid()
    ensures r.Valid() && Index(r.cursor) == (Index(s.cursor) + PositionCount - 1) % PositionCount
    ensures r.backup == Selected(r)
    ensures r.colors == s.colors && r.raw == s.raw && r.sram == s.sram
    ensures r.changedSelected == s.changedSelected && r.changedAll == s.changedAll
  {
    var q := Left(s.cursor);
    s.(cursor := q, backup := At(s, q))
  }

  /** J_RIGHT: move the cursor on and back up the value it lands on. */
  function MoveRight(s: State): (r: State)
    requires s.Valid()
    ensures r.Valid() && Index(r.cursor) == (Index(s.cursor) + 1) % PositionCount
    ensures r.backup == Selected(r)
    ensures r.colors == s.colors && r.raw == s.raw && r.sram == s.sram
    ensures r.changedSelected == s.changedSelected && r.changedAll == s.changedAll
  {
    var q := Right(s.cursor);
    s.(cursor := q, backup := At(s, q))
  }

  /** J_UP: one step up, backed up and flagged; nothing at all at the top. */
  function Increment(s: State): (r: State)
    requires s.Valid()
    ensures r.Valid() && OthersUnchanged(s, r) && r.cursor == s.cursor
    ensures Selected(s) < ComponentMax ==>
      Selected(r) == Selected(s) + 1 && r.backup == Selected(r) && r.changedSelected
    ensures Selected(s) < ComponentMax ==> r.changedAll == s.changedAll && r.raw == s.raw && r.sram == s.sram
    ensures Selected(s) == ComponentMax ==> r == s
  {
    var v := Selected(s);
    if v < ComponentMax then SetSelected(s, v + 1).(backup := v + 1, changedSelected := true) else s
  }

  /** J_DOWN: one step down, backed up and flagged; nothing at all at zero. */
  function Decrement(s: State): (r: State)
    requires s.Valid()
    ensures r.Valid() && OthersUnchanged(s, r) && r.cursor == s.cursor
    ensures Selected(s) > ComponentMin ==>
      Selected(r) + 1 == Selected(s) && r.backup == Selected(r) && r.changedSelected
    ensures Selected(s) > ComponentMin ==> r.changedAll == s.changedAll && r.raw == s.raw && r.sram == s.sram
    ensures Selected(s) == ComponentMin ==> r == s
  {
    var v := Selected(s);
    if v > ComponentMin then SetSelected(s, v - 1).(backup := v - 1, changedSelected := true) else s
  }

  /** J_A: jump to the maximum, or from the maximum back to the backup.
      The backup itself is left alone and the change is always flagged. */
  function ToggleMax(s: State): (r: State)
    requires s.Valid()
    ensures r.Valid() && OthersUnchanged(s, r) && r.cursor == s.cursor && r.backup == s.backup
    ensures Selected(r) == (if Selected(s) == ComponentMax then s.backup else ComponentMax)
    ensures r.changedSelected && r.changedAll == s.changedAll && r.raw == s.raw && r.sram == s.sram
  {
    SetSelected(s, if Selected(s) == ComponentMax then s.backup else ComponentMax).(changedSelected := true)
  }

  /** J_B: jump to zero, or from zero back to the backup. */
  function ToggleMin(s: State): (r: State)
    requires s.Valid()
    ensures r.Valid() && OthersUnchanged(s, r) && r.cursor == s.cursor && r.backup == s.backup
    ensures Selected(r) == (if Selected(s) == ComponentMin then s.backup else ComponentMin)
    ensures r.changedSelected && r.changedAll == s.changedAll && r.raw == s.raw && r.sram == s.sram
  {
    SetSelected(s, if Selected(s) == ComponentMin then s.backup else ComponentMin).(changedSelected := true)
  }

  /** J_SELECT: load four random words as the palette and flag everything.
      The words are `rand() | rand() << 8`, taken here as inputs. */
  function Randomize(s: State, words: seq<Word>): (r: State)
    requires s.Valid() && |words| == ColorCount
    ensures r.Valid() && r.raw == words && r.changedSelected && r.changedAll
    ensures forall i :: 0 <= i < ColorCount ==> Pack(r.colors[i]) == words[i] % 0x8000
    ensures r.cursor == s.cursor && r.backup == s.backup && r.sram == s.sram
  {
    LoadColorsFromPalette(s, words).(changedSelected := true, changedAll := true)
  }

  /** The `switch (new_buttons)`: one action per exact single-button value,
      nothing for any other value. */
  function Dispatch(s: State, buttons: Byte, words: seq<Word>): (r: State)
    requires s.Valid() && |words| == ColorCount
    ensures r.Valid() && r.sram == s.sram
    ensures Decode(buttons).None? ==> r == s
    ensures buttons == JLeft ==>
      Index(r.cursor) == (Index(s.cursor) + PositionCount - 1) % PositionCount && r.backup == Selected(r)
    ensures buttons == JRight ==>
      Index(r.cursor) == (Index(s.cursor) + 1) % PositionCount && r.backup == Selected(r)
    ensures buttons == JUp ==>
      r.cursor == s.cursor && Selected(r) == (if Selected(s) < ComponentMax then Selected(s) + 1 else Selected(s))
    ensures buttons == JDown ==>
      r.cursor == s.cursor && Selected(r) == (if Selected(s) > ComponentMin then Selected(s) - 1 else Selected(s))
    ensures buttons == JA ==>
      r.cursor == s.cursor && r.backup == s.backup &&
      Selected(r) == (if Selected(s) == ComponentMax then s.backup else ComponentMax)
    ensures buttons == JB ==>
      r.cursor == s.cursor && r.backup == s.backup &&
      Selected(r) == (if Selected(s) == ComponentMin then s.backup else ComponentMin)
    ensures buttons == JSelect ==>
      r.changedSelected && r.changedAll && forall i :: 0 <= i < ColorCount ==> Pack(r.colors[i]) == words[i] % 0x8000
    ensures buttons == JSelect ==> r.cursor == s.cursor && r.backup == s.backup
    ensures buttons == JUp && Selected(s) < ComponentMax ==> r.backup == Selected(r) && r.changedSelected
    ensures buttons == JUp && Selected(s) == ComponentMax ==> r == s
    ensures buttons == JDown && Selected(s) > ComponentMin ==> r.backup == Selected(r) && r.changedSelected
    ensures buttons == JDown && Selected(s) == ComponentMin ==> r == s
    ensures buttons == JA || buttons == JB ==> r.changedSelected
    ensures buttons == JLeft || buttons == JRight ==>
      r.changedSelected == s.changedSelected && r.changedAll == s.changedAll
    ensures buttons != JSelect ==>
      OthersUnchanged(s, r) && r.raw == s.raw && r.changedAll == s.changedAll
    ensures buttons != JSelect && At(r, s.cursor) != Selected(s) ==> r.changedSelected
    ensures r.cursor != s.cursor ==> r.colors == s.colors
    ensures s.changedSelected ==> r.changedSelected
    ensures s.changedAll ==> r.changedAll
  {
    match Decode(buttons)
    case None => s
    case Some(a) =>
      match a
      case MoveLeft => MoveLeft(s)
      case MoveRight => MoveRight(s)
      case Increment => Increment(s)
      case Decrement => Decrement(s)
      case ToggleMax => ToggleMax(s)
      case ToggleMin => ToggleMin(s)
      case Randomize => Randomize(s, words)
  }

  /** What one pass of the main loop sees from outside: the button value it
      dispatches on, the four words `rand` would yield if Select is pressed,
      and possibly four words written into the save RAM by someone else
      (an emulator's memory editor) while the picker waits. */
  datatype Input = Input(buttons: Byte, random: seq<Word>, external: Option<seq<Word>>) {
    predicate Valid() {
      |random| == ColorCount && (external.Some? ==> |external.value| == ColorCount)
    }
  }

  /** The bottom of the main loop: the wait for input, during which the
      save RAM may be written from outside and is polled, then the
      dispatch on the buttons. */
  function Wait(s: State, input: Input): (r: State)
    requires s.Valid() && input.Valid()
    ensures r.Valid()
  {
    var written := if input.external.Some? then s.(sram := input.external.value) else s;
    Dispatch(Poll(written), input.buttons, input.random)
  }

  /** One pass of the main loop: the frame's writes, then the wait. */
  function Step(hw: Hardware, s: State, input: Input): (r: Pass)
    requires s.Valid() && input.Valid()
    ensures r.next.Valid()
  {
    var f := Frame(hw, s);
    Pass(Wait(f.next, input), f.events)
  }
}

=== FILE: session.dfy ===
/** Properties of the picker over several calls: how the button actions
    compose, how the save RAM and the colors stay in step, and that what
    the screen shows follows the colors after every pass. */
module Session {
  import opened Bits
  import opened Optional
  import opened Color
  import opened Cursor
  import Buttons
  import opened Backend
  import opened Picker

  /** Two states agree on every component cell. */
  predicate SameCells(s: State, r: State)
    requires s.Valid() && r.Valid()
  {
    forall i, k :: 0 <= i < ColorCount && 0 <= k < ComponentCount ==> At(r, Pos(i, k)) == At(s, Pos(i, k))
  }

  /** The cells are the colors: agreeing on every cell is agreeing on the
      palette. */
  lemma CellsDetermineColors(s: State, r: State)
    requires s.Valid() && r.Valid()
    ensures SameCells(s, r) <==> r.colors == s.colors
  {
    if SameCells(s, r) {
      forall i | 0 <= i < ColorCount
        ensures r.colors[i] == s.colors[i]
      {
        assert At(r, Pos(i, 0)) == At(s, Pos(i, 0));
        assert At(r, Pos(i, 1)) == At(s, Pos(i, 1));
        assert At(r, Pos(i, 2)) == At(s, Pos(i, 2));
      }
    }
  }

  /** Changing the selected cell back to what it was, and leaving the
      others alone, gives back the same palette. */
  lemma OnlySelectedRestored(s: State, r: State)
    requires s.Valid() && r.Valid()
    requires OthersUnchanged(s, r) && At(r, s.cursor) == Selected(s)
    ensures r.colors == s.colors
  {
    assert SameCells(s, r);
    CellsDetermineColors(s, r);
  }

  // ---- The button actions -------------------------------------------

  /** Right then Left puts the cursor back; the backup now holds the value
      under it. */
  lemma MoveRightThenLeft(s: State)
    requires s.Valid()
    ensures MoveLeft(MoveRight(s)) == s.(backup := Selected(s))
  {
    LeftUndoesRight(s.cursor);
  }

  /** Left then Right puts the cursor back. */
  lemma MoveLeftThenRight(s: State)
    requires s.Valid()
    ensures MoveRight(MoveLeft(s)) == s.(backup := Selected(s))
  {
    RightUndoesLeft(s.cursor);
  }

  /** Up then Down below the maximum restores the value; the backup follows
      the value and the change stays flagged. */
  lemma IncrementThenDecrement(s: State)
    requires s.Valid() && Selected(s) < ComponentMax
    ensures Decrement(Increment(s)) == s.(backup := Selected(s), changedSelected := true)
  {
    OnlySelectedRestored(s, Decrement(Increment(s)));
  }

  /** Down then Up above zero restores the value. */
  lemma DecrementThenIncrement(s: State)
    requires s.Valid() && Selected(s) > ComponentMin
    ensures Increment(Decrement(s)) == s.(backup := Selected(s), changedSelected := true)
  {
    OnlySelectedRestored(s, Increment(Decrement(s)));
  }

  /** Pressing A twice away from the maximum goes up to it and back to the
      backup, whatever the backup holds. */
  lemma ToggleMaxTwice(s: State)
    requires s.Valid() && Selected(s) != ComponentMax
    ensures Selected(ToggleMax(s)) == ComponentMax
    ensures Selected(ToggleMax(ToggleMax(s))) == s.backup
    ensures s.backup == Selected(s) ==> ToggleMax(ToggleMax(s)) == s.(changedSelected := true)
  {
    if s.backup == Selected(s) {
      OnlySelectedRestored(s, ToggleMax(ToggleMax(s)));
    }
  }

  /** Pressing B twice away from zero goes down to it and back to the backup. */
  lemma ToggleMinTwice(s: State)
    requires s.Valid() && Selected(s) != ComponentMin
    ensures Selected(ToggleMin(s)) == ComponentMin
    ensures Selected(ToggleMin(ToggleMin(s))) == s.backup
    ensures s.backup == Selected(s) ==> ToggleMin(ToggleMin(s)) == s.(changedSelected := true)
  {
    if s.backup == Selected(s) {
      OnlySelectedRestored(s, ToggleMin(ToggleMin(s)));
    }
  }

  /** `n` presses of Up. */
  function Increments(s: State, n: nat): (r: State)
    requires s.Valid()
    ensures r.Valid() && r.cursor == s.cursor
  {
    if n == 0 then s else Increment(Increments(s, n - 1))
  }

  /** `n` presses of Down. */
  function Decrements(s: State, n: nat): (r: State)
    requires s.Valid()
    ensures r.Valid() && r.cursor == s.cursor
  {
    if n == 0 then s else Decrement(Decrements(s, n - 1))
  }

  function Min(a: nat, b: nat): nat { if a <= b then a else b }

  /** Holding Up climbs one step per press and stops at the maximum,
      touching no other cell. */
  lemma {:induction false} IncrementsSaturate(s: State, n: nat)
    requires s.Valid()
    ensures Selected(Increments(s, n)) == Min(Selected(s) + n, ComponentMax)
    ensures OthersUnchanged(s, Increments(s, n))
  {
    if n > 0 {
      IncrementsSaturate(s, n - 1);
    }
  }

  /** Holding Down descends one step per press and stops at zero. */
  lemma {:induction false} DecrementsSaturate(s: State, n: nat)
    requires s.Valid()
    ensures Selected(Decrements(s, n)) + Min(Selected(s), n) == Selected(s)
    ensures OthersUnchanged(s, Decrements(s, n))
  {
    if n > 0 {
      DecrementsSaturate(s, n - 1);
    }
  }

  // ---- The save RAM -------------------------------------------------

  /** Words below 0x8000 that unpack to the palette are its packed words. */
  lemma RawIsPacked(colors: seq<Rgb>, raw: seq<Word>)
    requires |colors| == ColorCount && forall i :: 0 <= i < ColorCount ==> colors[i].Valid()
    requires |raw| == ColorCount
    requires forall i :: 0 <= i < ColorCount ==> raw[i] < 0x8000 && Unpack(raw[i]) == colors[i]
    ensures raw == Packs(colors)
  {
    forall i | 0 <= i < ColorCount
      ensures raw[i] == Packs(colors)[i]
    {
      UnpackInjective(raw[i], Packs(colors)[i]);
    }
  }

  /** The save RAM holds the palette, unless a set dirty flag promises that
      the coming pass will save it. */
  predicate Synced(s: State)
    requires s.Valid()
  {
    s.Dirty() || s.sram == Packs(s.colors)
  }

  /** After a pass's frame the save RAM holds exactly `raw_colors`, so an
      idle poll that nobody else's write precedes finds no difference and
      reloads nothing. */
  lemma NoSpuriousReload(hw: Hardware, s: State)
    requires s.Valid() && Synced(s)
    ensures Frame(hw, s).next.sram == Frame(hw, s).next.raw
    ensures Poll(Frame(hw, s).next) == Frame(hw, s).next
  {
    RawIsPacked(s.colors, Frame(hw, s).next.raw);
  }

  /** The wait after a frame keeps the save RAM in step: an action that
      changes a color always raises a flag, and a poll that finds a
      foreign write reloads it and raises both. */
  lemma WaitKeepsSynced(f: State, input: Input)
    requires f.Valid() && input.Valid() && !f.Dirty()
    requires f.sram == f.raw && f.raw == Packs(f.colors)
    ensures Synced(Wait(f, input))
  {
    var w := if input.external.Some? then f.(sram := input.external.value) else f;
    var p := Poll(w);
    var r := Dispatch(p, input.buttons, input.random);
    assert r == Wait(f, input);
    if !r.Dirty() {
      assert p == w && p.sram == p.raw;
      if r.cursor == p.cursor {
        OnlySelectedRestored(p, r);
      }
    }
  }

  /** Every pass keeps the save RAM in step. */
  lemma StepKeepsSynced(hw: Hardware, s: State, input: Input)
    requires s.Valid() && input.Valid() && Synced(s)
    ensures Synced(Step(hw, s, input).next)
  {
    var f := Frame(hw, s).next;
    NoSpuriousReload(hw, s);
    RawIsPacked(f.colors, f.raw);
    WaitKeepsSynced(f, input);
  }

  /** Loading the packed palette at startup brings back the palette. */
  lemma StartupLoadsPacked(colors: seq<Rgb>)
    requires |colors| == ColorCount && forall i :: 0 <= i < ColorCount ==> colors[i].Valid()
    ensures Packs(colors)[0] != Erased
    ensures Startup(Packs(colors)).colors == colors
  {
    var ws := Packs(colors);
    var t := Startup(ws);
    forall i | 0 <= i < ColorCount
      ensures t.colors[i] == colors[i]
    {
      PackUnpack(ws[i]);
      assert Pack(t.colors[i]) == ws[i];
      assert Unpack(Pack(t.colors[i])) == t.colors[i];
    }
  }

  /** A saved palette survives a restart: once a pass has run from a
      synced state, the save is not erased and the startup load brings back
      exactly the colors. */
  lemma SaveSurvivesRestart(hw: Hardware, s: State)
    requires s.Valid() && Synced(s)
    ensures Frame(hw, s).next.sram[0] != Erased
    ensures Startup(Frame(hw, s).next.sram).colors == s.colors
  {
    NoSpuriousReload(hw, s);
    RawIsPacked(s.colors, Frame(hw, s).next.raw);
    StartupLoadsPacked(s.colors);
  }

  /** Four words written into the save RAM from outside while the picker
      waits become the palette on the next poll, with bit 15 dropped, and the
      next pass saves them back in that form. */
  lemma ExternalWriteAdopted(hw: Hardware, s: State, words: seq<Word>, random: seq<Word>)
    requires s.Valid() && |words| == ColorCount && |random| == ColorCount
    requires exists i :: 0 <= i < ColorCount && words[i] != Frame(hw, s).next.raw[i]
    ensures var r := Step(hw, s, Input(0, random, Some(words))).next;
      && r.changedSelected && r.changedAll
      && (forall i :: 0 <= i < ColorCount ==> Pack(r.colors[i]) == words[i] % 0x8000)
      && (forall i :: 0 <= i < ColorCount ==> Frame(hw, r).next.sram[i] == words[i] % 0x8000)
  {
    var r := Step(hw, s, Input(0, random, Some(words))).next;
    Buttons.DecodeNothing();
    forall i | 0 <= i < ColorCount
      ensures Frame(hw, r).next.sram[i] == words[i] % 0x8000
    {
      PackUnpack(Frame(hw, r).next.sram[i]);
    }
  }

  // ---- What the screen shows ----------------------------------------

  /** Every quadrant the dirty flags do not promise to repaint already
      shows its color and text color. */
  predicate Shows(s: State, screen: Screen)
    requires s.Valid() && screen.Valid()
  {
    ShowsUncovered(screen, Packs(s.colors), TextWords(s.colors), s.cursor.color, s.changedSelected, s.changedAll)
  }

  /** A pass's writes leave the whole screen showing the palette. */
  lemma FrameRepaints(hw: Hardware, s: State, screen: Screen)
    requires s.Valid() && screen.Valid() && Shows(s, screen)
    ensures ApplyAll(hw, screen, Frame(hw, s).events) == Screen(Packs(s.colors), TextWords(s.colors))
  {
    RefreshCompletes(hw, screen, Packs(s.colors), TextWords(s.colors), s.cursor.color, s.changedSelected, s.changedAll);
  }

  /** A color away from the cursor is untouched by a change to the cursor's cell. */
  lemma ColorUnchanged(s: State, r: State, i: nat)
    requires s.Valid() && r.Valid() && OthersUnchanged(s, r)
    requires i < ColorCount && i != s.cursor.color
    ensures r.colors[i] == s.colors[i]
  {
    assert At(r, Pos(i, 0)) == At(s, Pos(i, 0));
    assert At(r, Pos(i, 1)) == At(s, Pos(i, 1));
    assert At(r, Pos(i, 2)) == At(s, Pos(i, 2));
  }

  /** A dispatch from a clean state, on a screen showing its palette,
      leaves uncovered only quadrants whose colors it did not touch. */
  lemma DispatchKeepsShows(p: State, buttons: Byte, words: seq<Word>)
    requires p.Valid() && |words| == ColorCount && !p.Dirty()
    ensures Shows(Dispatch(p, buttons, words), Screen(Packs(p.colors), TextWords(p.colors)))
  {
    var r := Dispatch(p, buttons, words);
    if !r.changedAll && r.colors != p.colors {
      if At(r, p.cursor) == Selected(p) {
        OnlySelectedRestored(p, r);
      }
      forall i | 0 <= i < ColorCount && i != r.cursor.color
        ensures Packs(r.colors)[i] == Packs(p.colors)[i] && TextWords(r.colors)[i] == TextWords(p.colors)[i]
      {
        ColorUnchanged(p, r, i);
        UnpackInjective(Packs(r.colors)[i], Packs(p.colors)[i]);
      }
    }
  }

  /** The wait after a frame leaves uncovered only quadrants whose
      colors it did not touch. */
  lemma WaitKeepsShows(f: State, input: Input)
    requires f.Valid() && input.Valid() && !f.Dirty()
    ensures Shows(Wait(f, input), Screen(Packs(f.colors), TextWords(f.colors)))
  {
    var w := if input.external.Some? then f.(sram := input.external.value) else f;
    var p := Poll(w);
    assert Wait(f, input) == Dispatch(p, input.buttons, input.random);
    if !p.changedAll {
      assert p == w;
      DispatchKeepsShows(p, input.buttons, input.random);
    }
  }

  /** Every pass keeps the screen in step: after the pass, every quadrant
      its flags leave out still shows its color. */
  lemma StepKeepsShows(hw: Hardware, s: State, screen: Screen, input: Input)
    requires s.Valid() && input.Valid() && screen.Valid() && Shows(s, screen)
    ensures Shows(Step(hw, s, input).next, ApplyAll(hw, screen, Step(hw, s, input).events))
  {
    FrameRepaints(hw, s, screen);
    WaitKeepsShows(Frame(hw, s).next, input);
  }

  // ---- Whole sessions -----------------------------------------------

  /** The picker's state and the screen between two passes. */
  datatype Outcome = Outcome(state: State, screen: Screen) {
    predicate Valid() {
      state.Valid() && screen.Valid()
    }
  }

  predicate ValidInputs(inputs: seq<Input>) {
    forall i :: 0 <= i < |inputs| ==> inputs[i].Valid()
  }

  /** One pass, the screen taking its writes. */
  function Advance(hw: Hardware, o: Outcome, input: Input): (r: Outcome)
    requires o.Valid() && input.Valid()
    ensures r.Valid()
  {
    var p := Step(hw, o.state, input);
    Outcome(p.next, ApplyAll(hw, o.screen, p.events))
  }

  /** `outcomes` is what the picker and the screen go through on `inputs`:
      each outcome is the one before it advanced by one pass. */
  predicate IsTrace(hw: Hardware, outcomes: seq<Outcome>, inputs: seq<Input>) {
    && |outcomes| == |inputs| + 1
    && ValidInputs(inputs)
    && (forall k :: 0 <= k < |outcomes| ==> outcomes[k].Valid())
    && (forall k :: 0 < k < |outcomes| ==> outcomes[k] == Advance(hw, outcomes[k - 1], inputs[k - 1]))
  }

  /** The two invariants of a pass boundary together: the save RAM holds
      the palette unless a flush is pending, and the screen shows it
      wherever no repaint is pending. */
  predicate InStep(o: Outcome)
    requires o.Valid()
  {
    Synced(o.state) && Shows(o.state, o.screen)
  }

  lemma AdvanceKeepsInStep(hw: Hardware, o: Outcome, input: Input)
    requires o.Valid() && input.Valid() && InStep(o)
    ensures InStep(Advance(hw, o, input))
  {
    StepKeepsSynced(hw, o.state, input);
    StepKeepsShows(hw, o.state, o.screen, input);
  }

  /** Along a trace, once the invariants hold they hold at every later
      pass boundary. */
  lemma TraceKeepsInStep(hw: Hardware, outcomes: seq<Outcome>, inputs: seq<Input>)
    requires IsTrace(hw, outcomes, inputs) && InStep(outcomes[0])
    ensures forall k :: 0 <= k < |outcomes| ==> InStep(outcomes[k])
  {
    var k := 0;
    while k < |inputs|
      invariant 0 <= k <= |inputs|
      invariant forall j :: 0 <= j <= k ==> InStep(outcomes[j])
    {
      AdvanceKeepsInStep(hw, outcomes[k], inputs[k]);
      assert outcomes[k + 1] == Advance(hw, outcomes[k], inputs[k]);
      k := k + 1;
    }
  }

  /** Power-on satisfies both invariants, whatever the screen shows: both
      dirty flags start set. */
  lemma StartupInStep(sram: seq<Word>, screen: Screen)
    requires |sram| == ColorCount && screen.Valid()
    ensures InStep(Outcome(Startup(sram), screen))
  {
  }

  /** From power-on, whatever the save RAM and the screen held, at every
      later pass boundary the next pass leaves every quadrant of the screen
      showing its color and its contrast text color, leaves the save RAM
      holding exactly the palette, and its idle poll reloads nothing. */
  lemma SessionStaysInStep(hw: Hardware, outcomes: seq<Outcome>, inputs: seq<Input>, k: nat)
    requires IsTrace(hw, outcomes, inputs) && k < |outcomes|
    requires outcomes[0].state == Startup(outcomes[0].state.sram)
    ensures var o := outcomes[k];
      ApplyAll(hw, o.screen, Frame(hw, o.state).events) == Screen(Packs(o.state.colors), TextWords(o.state.colors))
    ensures var o := outcomes[k];
      Frame(hw, o.state).next.sram == Packs(o.state.colors)
    ensures var o := outcomes[k];
      Poll(Frame(hw, o.state).next) == Frame(hw, o.state).next
  {
    StartupInStep(outcomes[0].state.sram, outcomes[0].screen);
    TraceKeepsInStep(hw, outcomes, inputs);
    var o := outcomes[k];
    assert InStep(o);
    FrameRepaints(hw, o.state, o.screen);
    NoSpuriousReload(hw, o.state);
    RawIsPacked(o.state.colors, Frame(hw, o.state).next.raw);
  }
}
